=== FILE: README.md ===
# ResizableSpanWriter in Dafny

A model of the two array-pool-backed output buffers of the ResizableSpanWriter
repository, with proofs of their contracts:

- `MemoryBufferWriter<T>` (module `MemoryWriterBuffer`) is an
  `IBufferWriter<T>`. It has one rented array and a write cursor. You reserve
  with `GetSpan`/`GetMemory`, commit with `Advance`, and append with `Write`.
  When a reservation does not fit, it rents the next power of two from its
  pool, copies the written prefix and returns the old array. The growth rule
  is the bit-smearing `RoundUpPow2Ceiling` (module `PowerOfTwo`, resting on
  module `Bits`).
- `ResizableSpanWriter<T>` (module `ResizableWriter`) is an append-only
  writer. `Slice(n)` grows the array, hands out the region at the cursor and
  moves the cursor past it. Growth rents at least
  `index + max(growthIncrement, n)` items and copies the whole old array over.

Shared pieces:
- `Runtime` holds the .NET runtime semantics the code relies on:
  - 32-bit `int` with unchecked wrap-around (`Wrap`) and `checked` overflow
    (`CheckedAdd`, `CheckedIncrement`);
  - the exceptions;
  - `Outcome`, for an operation that may throw after it has already changed
    the writer.
- `ArrayPools` models `ArrayPool<T>`. A pool is a function from requested
  length to the array it lends. `Honest` says it lends at least what was
  asked. `Fits` is the bounds check every `Span`/`Memory` constructor and
  `Slice` makes.
- A 32-bit `int` is modelled in `Bits` as 32 booleans, least significant
  first. `>>` is the arithmetic shift, which copies the sign bit.

Writers are immutable values and operations are pure functions:
- An operation that may throw returns `Outcome`: the writer it leaves behind,
  plus either its result or the exception.
- Arrays handed back to the pool are logged in the writer's `returned`
  sequence.
- A region handed to the caller is a `View(start, length)` into the current
  array.

Where the code has a defect, the model keeps two functions: one that behaves
*as written* (`...AsWritten`) and a corrected one, which the rest of the model
uses. See "## Findings".

Three behaviours a reader might not expect:
- The corrected `Advance` moves the cursor back when given a negative count
  that keeps the cursor at or above zero; it does not fail. As written,
  `Advance` sets the cursor to the array length plus `count` instead (see
  "## Findings").
- A negative initial capacity throws `ArgumentOutOfRangeException`, and so
  does a growth increment below 1. An initial capacity of 0 is accepted.
- `GetSpan`/`GetMemory` reserve exactly the hint, except that a hint of 0
  means 8. The hint is not raised to a default.

## Model

| member | source | states |
|---|---|---|
| Bits.SmearIsLowOnes | ResizableSpanWriter/MemoryWriterBuffer.cs:269-273 | the five or-with-shifted-self steps set exactly the bits at and below the highest set bit of `x` and clear every bit above it |
| PowerOfTwo.RoundUpResult | ResizableSpanWriter/MemoryWriterBuffer.cs:264-277 | for 1 <= x <= 2^30 the result is a power of two in [x, 2x); above 2^30 the checked increment throws `OverflowException`; for int.MinValue < x <= 0 the result is 0; at int.MinValue the checked decrement throws |
| PowerOfTwo.RoundUpIsLeast | ResizableSpanWriter/MemoryWriterBuffer.cs:264-277 | for 1 <= x <= 2^30 the result is at most every power of two that is at least x, i.e. it is the least one |
| Runtime.CheckedAdd | ResizableSpanWriter/MemoryWriterBuffer.cs:241 | a `checked` sum succeeds exactly when the unchecked (wrapping) sum equals the exact one, returns that sum, and otherwise throws `OverflowException` |
| Runtime.Wrap | ResizableSpanWriter/ResizableSpanWriter.cs:195 | an unchecked int result agrees with the exact value modulo 2^32 and equals it whenever it fits |
| MemoryWriterBuffer.Create | ResizableSpanWriter/MemoryWriterBuffer.cs:66-78 | a negative capacity throws `ArgumentOutOfRangeException`; capacity 0 holds the shared empty array and rents nothing; otherwise a rented array of at least the capacity; the cursor starts at 0 and nothing is disposed or returned |
| MemoryWriterBuffer.WrittenSpan | ResizableSpanWriter/MemoryWriterBuffer.cs:83-106 | a live writer's written view is exactly the first `index` items of its array; a disposed one throws `ObjectDisposedException` |
| MemoryWriterBuffer.GrowIfRequired | ResizableSpanWriter/MemoryWriterBuffer.cs:237-248 | no growth when `index + size` fits; otherwise the length to rent is a power of two in [index + size, 2(index + size)) up to 2^30, and `OverflowException` past it |
| MemoryWriterBuffer.Grow | ResizableSpanWriter/MemoryWriterBuffer.cs:213-230 | the cursor, the written items and the pool are unchanged; a throw leaves the writer unchanged; at most the old array is added to the return log; a disposed writer throws `ObjectDisposedException` |
| MemoryWriterBuffer.GrowWhenRoomy | ResizableSpanWriter/MemoryWriterBuffer.cs:241-243 | when `index + size` fits in the array, growing changes nothing |
| MemoryWriterBuffer.GrowRentsNextPowerOfTwo | ResizableSpanWriter/MemoryWriterBuffer.cs:213-230 | when it does not fit and is at most 2^30, the new array holds `index + size` items, is rented, carries the pool's array for a power of two in [index + size, 2(index + size)) past the cursor, and the old array is returned once |
| MemoryWriterBuffer.GrowOverflowsPast2To30 | ResizableSpanWriter/MemoryWriterBuffer.cs:241-245 | a needed length above 2^30 throws `OverflowException` and leaves the writer unchanged |
| MemoryWriterBuffer.GrowReturnsOnlyRented | ResizableSpanWriter/MemoryWriterBuffer.cs:227 | growth never adds the shared empty array to the return log |
| MemoryWriterBuffer.GrowAsWritten | ResizableSpanWriter/MemoryWriterBuffer.cs:213-230 | as written, growth keeps the cursor and the written items and a throw changes nothing, but every growth up to 2^30 items puts the old array in the return log, whether it was rented or not |
| MemoryWriterBuffer.GetSpan | ResizableSpanWriter/MemoryWriterBuffer.cs:135-152 | the cursor and the written items are unchanged; the region handed out starts at the cursor and lies inside the array; whenever it succeeds the hint was non-negative and the region is exactly `hint` items long, or 8 for a hint of 0; a negative hint throws; for a non-negative hint on a live writer it succeeds exactly when the reservation fits the current array or ends at most at 2^30, and otherwise throws `OverflowException` |
| MemoryWriterBuffer.Advance | ResizableSpanWriter/MemoryWriterBuffer.cs:121-132 | commits move the cursor by exactly `count`; for a non-negative count it succeeds iff `index + count` is within the array, otherwise it throws `InvalidOperationException` (`OverflowException` past int.MaxValue) and leaves the writer unchanged; a cursor pushed below 0 throws `ArgumentOutOfRangeException` |
| MemoryWriterBuffer.AdvanceWithinCapacity | ResizableSpanWriter/MemoryWriterBuffer.cs:128-131 | committing what fits keeps the cursor inside the array |
| MemoryWriterBuffer.AdvanceAsWritten | ResizableSpanWriter/MemoryWriterBuffer.cs:121-132 | as written, a commit that passes the guard sets the cursor to the array length plus `count`; a dropped array throws `NullReferenceException`; a throw changes nothing |
| MemoryWriterBuffer.Write | ResizableSpanWriter/MemoryWriterBuffer.cs:183-190 | the written items become the old ones plus `item`; a throw leaves the writer unchanged; on a live writer it succeeds exactly when the item fits the current array or the cursor is below 2^30, and a full writer at or past 2^30 items throws `OverflowException` |
| MemoryWriterBuffer.Copy | ResizableSpanWriter/MemoryWriterBuffer.cs:197-206 | `Write` of a span, memory or array (lines 159-176) appends exactly those items in order; a throw leaves the writer unchanged; on a live writer it succeeds exactly when `index + count` fits the current array or is at most 2^30, and otherwise throws `OverflowException` |
| MemoryWriterBuffer.WriteEach | ResizableSpanWriter/MemoryWriterBuffer.cs:183-190 | item-by-item writes append all the items in order |
| MemoryWriterBuffer.CopyMatchesWriteEach | ResizableSpanWriter/MemoryWriterBuffer.cs:159-206 | copying a run of items and writing them one at a time both succeed and leave the same written items, whenever the run fits the current array or ends at most at 2^30 |
| MemoryWriterBuffer.WriteEachFits | ResizableSpanWriter/MemoryWriterBuffer.cs:183-190 | writing items one at a time never fails while they all fit the current array, however large it is |
| MemoryWriterBuffer.ReserveFillAdvance | ResizableSpanWriter/MemoryWriterBuffer.cs:121-152 | `GetSpan`, filling k items of the region, then `Advance(k)` appends exactly those k items, whenever the reservation fits the current array or ends at most at 2^30 |
| MemoryWriterBuffer.Dispose | ResizableSpanWriter/MemoryWriterBuffer.cs:251-261 | the writer ends disposed without an array; a rented array goes back to the pool once; disposing a disposed writer changes nothing |
| MemoryWriterBuffer.DisposeIdempotent | ResizableSpanWriter/MemoryWriterBuffer.cs:253-259 | disposing twice is disposing once |
| MemoryWriterBuffer.DisposeAsWritten | ResizableSpanWriter/MemoryWriterBuffer.cs:251-261 | as written, the array goes to the return log (rented or not) and is dropped, the disposed flag never changes, and a writer without an array is left as it is |
| MemoryWriterBuffer.UseAfterDisposeFails | ResizableSpanWriter/MemoryWriterBuffer.cs:281-284 | after `Dispose`, the written view, growth, reservation and both writes throw `ObjectDisposedException`, and `Advance` throws |
| MemoryWriterBuffer.AdvanceAsWrittenOvershoots | ResizableSpanWriter/MemoryWriterBuffer.cs:121-132 | as written, a positive commit that fits sets the cursor to the array length plus the count, past the end of the array |
| MemoryWriterBuffer.DisposeAsWrittenIdempotent | ResizableSpanWriter/MemoryWriterBuffer.cs:253-259 | as written, a second `Dispose` does nothing, because the array is already gone |
| MemoryWriterBuffer.DisposeAsWrittenLeavesWriterOpen | ResizableSpanWriter/MemoryWriterBuffer.cs:251-261 | as written, a disposed writer is not marked disposed: its written view is empty at cursor 0 and throws `ArgumentOutOfRangeException` past it, and growing throws `NullReferenceException` (or `OverflowException` when `index + size` overflows) instead of `ObjectDisposedException` |
| MemoryWriterBuffer.GrowAsWrittenReturnsEmptyArray | ResizableSpanWriter/MemoryWriterBuffer.cs:227 | as written, the first growth of a capacity-0 writer returns the shared empty array to the pool |
| ResizableWriter.Create | ResizableSpanWriter/ResizableSpanWriter.cs:63-71 | an increment below 1 throws `ArgumentOutOfRangeException`; otherwise the buffer holds at least the increment, the cursor is 0 and the writer rents from the given pool |
| ResizableWriter.CreateDefault | ResizableSpanWriter/ResizableSpanWriter.cs:42-45 | the parameterless constructor never throws and yields an empty writer over the shared pool with increment 256 whose buffer holds at least 256 items |
| ResizableWriter.CreateAsWritten | ResizableSpanWriter/ResizableSpanWriter.cs:63-71 | as written, the writer is the one built over the shared pool, whatever pool is passed |
| ResizableWriter.CreateAsWrittenIgnoresPool | ResizableSpanWriter/ResizableSpanWriter.cs:68 | as written, the writer does not depend on the pool argument |
| ResizableWriter.WrittenSpan | ResizableSpanWriter/ResizableSpanWriter.cs:76-95 | the written view is exactly the first `index` items of the buffer |
| ResizableWriter.Grow | ResizableSpanWriter/ResizableSpanWriter.cs:170-181 | no-op when `index + length` fits; otherwise the whole old buffer is the front of the new one, which holds `index + length` and `index + growthIncrement` items, and the old array is returned exactly once whenever the request does not fit and `index + length` fits in an int; a throw leaves the writer unchanged |
| ResizableWriter.Slice | ResizableSpanWriter/ResizableSpanWriter.cs:189-198 | succeeds iff `length` is non-negative and `index + length` fits in an int; then the region is `[index, index + length)`, the cursor moves past it and the written items are kept |
| ResizableWriter.WriteItem | ResizableSpanWriter/ResizableSpanWriter.cs:114-119 | `Write(item)` and `WriteAsync(item)` append exactly `item`; they succeed below int.MaxValue items |
| ResizableWriter.WriteSpan | ResizableSpanWriter/ResizableSpanWriter.cs:102-107 | `Write(Span<T>)` and `WriteAsync(Memory<T>)` append exactly the items in order |
| ResizableWriter.WriteSpanAsWritten | ResizableSpanWriter/ResizableSpanWriter.cs:102-107 | as written, the cursor advances by the item count and the earlier written items are kept, but a write that fits leaves the buffer contents untouched |
| ResizableWriter.WritePointer | ResizableSpanWriter/ResizableSpanWriter.cs:127-135 | the pointer write appends exactly the first `length` items in order, and succeeds iff `length` is non-negative and fits |
| ResizableWriter.WriteEach | ResizableSpanWriter/ResizableSpanWriter.cs:114-119 | item-by-item writes append all the items in order |
| ResizableWriter.WriteThousandItems | ResizableSpanWriter.Tests/UnitTest1.cs:11-24 | writing 0..999 one at a time with increment 5 leaves exactly 0..999 written, for any honest pool |
| ResizableWriter.WriteSpanEach | ResizableSpanWriter/ResizableSpanWriter.cs:102-107 | writing items one array each appends them all, and succeeds whenever the cursor stays within an int |
| ResizableWriter.WriteThousandSpans | ResizableSpanWriter.Tests/UnitTest1.cs:26-43 | writing 0..999 as one-item arrays with increment 5 leaves exactly 0..999 written, for any honest pool |
| ResizableWriter.WriteSpanAsWrittenDropsItems | ResizableSpanWriter/ResizableSpanWriter.cs:102-107 | as written, writing `[7]` into a writer over zero-filled arrays leaves `[0]` written |

## Left out

- Allocation failure: an honest pool always lends the requested length up to int.MaxValue. The runtime caps arrays at `Array.MaxLength` (0x7FFFFFC7) and `Rent` then throws `OutOfMemoryException`, so the "succeeds exactly when `index + length` fits in an int" contracts of `ResizableWriter.Slice`, `WriteItem`, `WriteSpan` and `WritePointer` hold for this idealised pool only.
- `ArrayPool<T>` internals are not modelled. A pool is a fixed function from requested length to lent array, so two rents of the same length lend equal contents. Every property is proved for all pools, or for all honest pools.
- The `clearArray` argument of `Return` (`RuntimeHelpers.IsReferenceOrContainsReferences<T>()`) is not modelled: the pool's handling of returned arrays is not modelled.
- Arrays are values, so the return log records contents, not identity. The shared empty array is told apart by `Block.rented == false`.
- Span and Memory aliasing are not modelled; views are index ranges. `WrittenMemory` is the same as `WrittenSpan`. `IMemoryOwner<T>.Memory` (MemoryWriterBuffer.cs:109-118) is left out.
- `ValueTask`: `WriteAsync(T)` and `WriteAsync(Memory<T>)` complete synchronously, so they are modelled by `WriteItem` and `WriteSpan`.
- The unsafe pointer of `Write(T*, int)` is a sequence holding at least `length` items; reading past it is undefined behaviour in the source.
- An array rented just before an exception (a too-short array, a failed copy) is dropped without being logged, as in the source. The model does not track leaked rentals.
- The constructors that take no pool (MemoryWriterBuffer.cs:45-48 and 55-58, ResizableSpanWriter.cs:46-55) are `Create` with the shared pool; the parameterless `ResizableSpanWriter` constructor is `CreateDefault`.
- Thread safety: neither writer is thread-safe, and the model is sequential.
- JIT attributes (`AggressiveInlining`, `StackTraceHidden`, `DoesNotReturn`) are not modelled.
- MemoryWriterBuffer.Grow: its case-by-case behaviour (no-op, power-of-two rent, overflow) is stated in the lemmas `GrowWhenRoomy`, `GrowRentsNextPowerOfTwo` and `GrowOverflowsPast2To30` rather than in its own contract.
- ResizableWriter.Grow: the growth-increment bound is stated only when `index + growthIncrement` fits in an int. Past that, the unchecked sum wraps negative and only `index + length` is rented.

## Findings

| source | as written | input that shows it | evidently intended | confidence | as-written member | corrected member |
|---|---|---|---|---|---|---|
| ResizableSpanWriter/MemoryWriterBuffer.cs:123 | `Advance` sets the cursor to the array length plus `count` | 8-item array, cursor 0, `Advance(1)`: cursor becomes 9, past the array | cursor plus `count` | high, not executed | MemoryWriterBuffer.AdvanceAsWritten (MemoryWriterBuffer.AdvanceAsWrittenOvershoots) | MemoryWriterBuffer.Advance (MemoryWriterBuffer.AdvanceWithinCapacity) |
| ResizableSpanWriter/MemoryWriterBuffer.cs:251-261 | `Dispose` never sets `_disposed`, so the check at line 283 never fires | `Dispose()` at cursor 0, then `WrittenSpan` returns an empty view and `GetSpan(1)` throws `NullReferenceException` | mark the writer disposed, so later calls throw `ObjectDisposedException` | high, not executed | MemoryWriterBuffer.DisposeAsWritten (MemoryWriterBuffer.DisposeAsWrittenLeavesWriterOpen) | MemoryWriterBuffer.Dispose (MemoryWriterBuffer.UseAfterDisposeFails) |
| ResizableSpanWriter/MemoryWriterBuffer.cs:227 | the shared `Array.Empty<T>()` of line 77 is returned to the pool on first growth (and by `Dispose` at line 257) | capacity 0, then `Write(x)` | return only arrays rented from the pool | medium (the shared pool drops zero-length arrays, a custom pool may not), not executed | MemoryWriterBuffer.GrowAsWritten (MemoryWriterBuffer.GrowAsWrittenReturnsEmptyArray) | MemoryWriterBuffer.Grow (MemoryWriterBuffer.GrowReturnsOnlyRented) |
| ResizableSpanWriter/ResizableSpanWriter.cs:106 | `Write(Span<T>)` assigns the items to the local `slice` and copies nothing (so does `WriteAsync(Memory<T>)` at line 146) | increment 1 over zero-filled arrays, `Write([7])`: written view is `[0]` | copy the items into the reserved slice | high, not executed | ResizableWriter.WriteSpanAsWritten (ResizableWriter.WriteSpanAsWrittenDropsItems) | ResizableWriter.WriteSpan |
| ResizableSpanWriter/ResizableSpanWriter.cs:68 | the constructor and `Grow` (lines 174, 178) use `ArrayPool<T>.Shared` and ignore the `pool` argument | any custom pool | rent from and return to the given pool | high, not executed | ResizableWriter.CreateAsWritten (ResizableWriter.CreateAsWrittenIgnoresPool) | ResizableWriter.Create |

=== FILE: bits.dfy ===
/** The 32-bit two's-complement word behind a runtime `int`, bit by bit
    (index 0 is the least significant bit), with the bitwise OR and the
    arithmetic right shift that the power-of-two rounding uses. */
module Bits {
  import opened Runtime

  function Pow2(k: nat): (p: nat)
    ensures p >= 1
  {
    if k == 0 then 1 else 2 * Pow2(k - 1)
  }

  /** Powers of two are ordered as their exponents are. */
  lemma {:induction false} Pow2Order(a: nat, b: nat)
    ensures a < b <==> Pow2(a) < Pow2(b)
    ensures a <= b <==> Pow2(a) <= Pow2(b)
    decreases a + b
  {
    if a > 0 && b > 0 {
      Pow2Order(a - 1, b - 1);
    } else if a > 0 {
      Pow2Order(a - 1, 0);
    } else if b > 0 {
      Pow2Order(0, b - 1);
    }
  }

  const Pow2Of31: nat := 0x8000_0000
  const Pow2Of32: nat := 0x1_0000_0000

  lemma Pow2Constants()
    ensures Pow2(30) == 0x4000_0000
    ensures Pow2(31) == Pow2Of31
    ensures Pow2(32) == Pow2Of32
  {
    assert Pow2(4) == 0x10;
    assert Pow2(8) == 0x100;
    assert Pow2(12) == 0x1000;
    assert Pow2(16) == 0x1_0000;
    assert Pow2(20) == 0x10_0000;
    assert Pow2(24) == 0x100_0000;
    assert Pow2(28) == 0x1000_0000;
  }

  type Word = w: seq<bool> | |w| == 32 witness seq(32, _ => false)

  /** The unsigned value of a bit string, least significant bit first. */
  function Val(s: seq<bool>): nat
  {
    if s == [] then 0 else (if s[0] then 1 else 0) + 2 * Val(s[1..])
  }

  /** The `n` low bits of `u`, least significant first. */
  function BitsOf(u: nat, n: nat): (s: seq<bool>)
    ensures |s| == n
  {
    if n == 0 then [] else [u % 2 == 1] + BitsOf(u / 2, n - 1)
  }

  lemma {:induction false} ValBitsOf(u: nat, n: nat)
    requires u < Pow2(n)
    ensures Val(BitsOf(u, n)) == u
  {
    if n > 0 {
      ValBitsOf(u / 2, n - 1);
      assert BitsOf(u, n)[1..] == BitsOf(u / 2, n - 1);
    }
  }

  lemma {:induction false} ValBound(s: seq<bool>)
    ensures Val(s) < Pow2(|s|)
  {
    if s != [] {
      ValBound(s[1..]);
    }
  }

  /** The value of a bit string is the value of all but its top bit plus the
      weight of the top bit. */
  lemma {:induction false} ValTop(s: seq<bool>)
    requires s != []
    ensures Val(s) == Val(s[..|s| - 1]) + (if s[|s| - 1] then Pow2(|s| - 1) else 0)
  {
    if |s| > 1 {
      ValTop(s[1..]);
      assert s[1..][..|s| - 2] == s[..|s| - 1][1..];
    }
  }

  /** The word that holds `x` in two's complement. */
  function ToWord(x: Int32): Word
  {
    BitsOf(if x < 0 then x + Pow2Of32 else x, 32)
  }

  /** The runtime `int` whose two's-complement bits are `w`. */
  function FromWord(w: Word): Int32
  {
    ValTop(w);
    ValBound(w[..31]);
    Pow2Constants();
    if w[31] then Val(w) - Pow2Of32 else Val(w)
  }

  lemma WordRoundTrip(x: Int32)
    ensures FromWord(ToWord(x)) == x
    ensures ToWord(x)[31] <==> x < 0
  {
    Pow2Constants();
    var u := if x < 0 then x + Pow2Of32 else x;
    ValBitsOf(u, 32);
    ValTop(ToWord(x));
    ValBound(ToWord(x)[..31]);
  }

  /** `a | b` */
  function Or(a: Word, b: Word): (r: Word)
  {
    seq(32, i requires 0 <= i < 32 => a[i] || b[i])
  }

  /** `w >> k` on a runtime `int`: the sign bit is copied into the vacated
      high bits. */
  function Sar(w: Word, k: nat): (r: Word)
  {
    seq(32, i requires 0 <= i < 32 => if i + k < 32 then w[i + k] else w[31])
  }

  /** The steps `x |= x >> s` for s = `step`, 2 `step`, ... below 32. */
  function SmearFrom(w: Word, step: nat): Word
    requires 0 < step
    decreases 32 - step
  {
    if 32 <= step then w else SmearFrom(Or(w, Sar(w, step)), 2 * step)
  }

  /** The five `x |= x >> s` steps of the rounding routine, s = 1, 2, 4, 8, 16. */
  function Smear(w: Word): Word
  {
    SmearFrom(w, 1)
  }

  /** Some bit of `s` in `[lo, hi)` is set. */
  function AnyIn(s: seq<bool>, lo: nat, hi: nat): bool
    requires hi <= |s|
    decreases hi - lo
  {
    lo < hi && (s[lo] || AnyIn(s, lo + 1, hi))
  }

  lemma {:induction false} AnyInSplit(s: seq<bool>, lo: nat, mid: nat, hi: nat)
    requires lo <= mid <= hi <= |s|
    ensures AnyIn(s, lo, hi) == (AnyIn(s, lo, mid) || AnyIn(s, mid, hi))
    decreases mid - lo
  {
    if lo < mid {
      AnyInSplit(s, lo + 1, mid, hi);
    }
  }

  function Min(a: int, b: int): int { if a < b then a else b }

  /** One `r |= r >> c` step doubles the window of bits each result bit
      gathers. */
  lemma SmearStep(w: Word, r: Word, c: nat)
    requires 1 <= c
    requires forall i :: 0 <= i < 32 ==> r[i] == AnyIn(w, i, Min(i + c, 32))
    ensures forall i :: 0 <= i < 32 ==> Or(r, Sar(r, c))[i] == AnyIn(w, i, Min(i + 2 * c, 32))
  {
    forall i | 0 <= i < 32
      ensures Or(r, Sar(r, c))[i] == AnyIn(w, i, Min(i + 2 * c, 32))
    {
      if i + c < 32 {
        AnyInSplit(w, i, i + c, Min(i + 2 * c, 32));
      } else {
        AnyInSplit(w, i, 31, 32);
      }
    }
  }

  /** Once each bit gathers a window of `step` bits, the remaining steps
      widen every window to the top of the word. */
  lemma {:induction false} SmearFromAnyAbove(w: Word, r: Word, step: nat)
    requires 0 < step
    requires forall i :: 0 <= i < 32 ==> r[i] == AnyIn(w, i, Min(i + step, 32))
    ensures forall i :: 0 <= i < 32 ==> SmearFrom(r, step)[i] == AnyIn(w, i, 32)
    decreases 32 - step
  {
    if step < 32 {
      SmearStep(w, r, step);
      SmearFromAnyAbove(w, Or(r, Sar(r, step)), 2 * step);
    }
  }

  /** After smearing, bit `i` is set exactly when some bit at or above `i`
      was set. */
  lemma SmearAnyAbove(w: Word)
    ensures forall i :: 0 <= i < 32 ==> Smear(w)[i] == AnyIn(w, i, 32)
  {
    forall i | 0 <= i < 32
      ensures w[i] == AnyIn(w, i, Min(i + 1, 32))
    {
    }
    SmearFromAnyAbove(w, w, 1);
  }

  /** One more than the position of the highest set bit; 0 when no bit is set. */
  function Width(s: seq<bool>): (k: nat)
    ensures k <= |s|
  {
    if s == [] then 0 else if s[|s| - 1] then |s| else Width(s[..|s| - 1])
  }

  lemma {:induction false} AnyInPrefix(s: seq<bool>, lo: nat, hi: nat, n: nat)
    requires hi <= n <= |s|
    ensures AnyIn(s, lo, hi) == AnyIn(s[..n], lo, hi)
    decreases hi - lo
  {
    if lo < hi {
      AnyInPrefix(s, lo + 1, hi, n);
    }
  }

  /** Some bit at or above `i` is set exactly when `i` is below the width. */
  lemma {:induction false} WidthAnyIn(s: seq<bool>, i: nat)
    requires i < |s|
    ensures AnyIn(s, i, |s|) <==> i < Width(s)
  {
    var n := |s| - 1;
    if i == n {
      assert AnyIn(s, i, |s|) == s[n];
    } else {
      AnyInSplit(s, i, n, |s|);
      assert AnyIn(s, n, |s|) == s[n];
      AnyInPrefix(s, i, n, n);
      WidthAnyIn(s[..n], i);
    }
  }

  /** The width brackets the value between two consecutive powers of two. */
  lemma {:induction false} WidthBracketsVal(s: seq<bool>)
    ensures Val(s) < Pow2(Width(s))
    ensures Width(s) > 0 ==> Pow2(Width(s) - 1) <= Val(s)
  {
    if s != [] {
      ValTop(s);
      if s[|s| - 1] {
        ValBound(s);
      } else {
        WidthBracketsVal(s[..|s| - 1]);
      }
    }
  }

  /** The `n`-bit string whose `k` low bits are set. */
  function LowOnes(k: nat, n: nat): (s: seq<bool>)
    ensures |s| == n
  {
    seq(n, i requires 0 <= i < n => i < k)
  }

  lemma {:induction false} ValLowOnes(k: nat, n: nat)
    requires k <= n
    ensures Val(LowOnes(k, n)) == Pow2(k) - 1
  {
    if n > 0 {
      var k' := if k == 0 then 0 else k - 1;
      assert LowOnes(k, n)[1..] == LowOnes(k', n - 1);
      ValLowOnes(k', n - 1);
    }
  }

  /** Smearing sets every bit below the highest set bit and nothing above it. */
  lemma SmearIsLowOnes(w: Word)
    ensures Smear(w) == LowOnes(Width(w), 32)
  {
    SmearAnyAbove(w);
    forall i | 0 <= i < 32
      ensures Smear(w)[i] == LowOnes(Width(w), 32)[i]
    {
      WidthAnyIn(w, i);
    }
  }
}

=== FILE: memory_writer.dfy ===
/** `MemoryBufferWriter<T>`: an `IBufferWriter<T>` over one array rented from
    a pool, grown to the next power of two when a reservation does not fit. */
module MemoryWriterBuffer {
  import opened Runtime
  import opened ArrayPools
  import opened PowerOfTwo

  /** An array the writer holds: one rented from the pool, or the shared empty
      array (`Array.Empty<T>()`) a writer of capacity 0 starts with. */
  datatype Block<T> = Block(items: Array<T>, rented: bool)

  datatype MemoryBufferWriter<T> = MemoryBufferWriter(
    buffer: Option<Block<T>>,    // `_array`; None once it has been dropped
    index: Int32,               // `_index`
    pool: Pool<T>,              // `_pool`
    disposed: bool,             // `_disposed`
    returned: seq<Block<T>>)    // arrays handed back to the pool, in order

  /** What the writer keeps true between calls: the cursor lies inside the
      array, and the array is dropped exactly when the writer is disposed. */
  predicate Valid<T>(w: MemoryBufferWriter<T>)
  {
    && 0 <= w.index
    && (w.buffer.Some? ==> w.index <= |w.buffer.value.items|)
    && (w.buffer.None? <==> w.disposed)
  }

  function Capacity<T>(w: MemoryBufferWriter<T>): nat
  {
    if w.buffer.Some? then |w.buffer.value.items| else 0
  }

  /** The items written so far, for a writer that still has its array. */
  function Prefix<T>(w: MemoryBufferWriter<T>): seq<T>
    requires Valid(w) && w.buffer.Some?
  {
    w.buffer.value.items[..w.index]
  }

  /** What handing `b` back to the pool adds to the log: only arrays that came
      from the pool go back to it. */
  function Retire<T>(b: Block<T>): seq<Block<T>>
  {
    if b.rented then [b] else []
  }

  /** `new MemoryBufferWriter<T>(pool, initialCapacity)` */
  function Create<T>(pool: Pool<T>, initialCapacity: Int32): (r: Result<MemoryBufferWriter<T>>)
    ensures r.Throw? <==> initialCapacity < 0
    ensures r.Throw? ==> r.exception == ArgumentOutOfRange
    ensures r.Ok? ==> Valid(r.value) && r.value.index == 0 && !r.value.disposed && r.value.returned == []
    ensures r.Ok? ==> r.value.pool == pool
    ensures initialCapacity == 0 ==> r.Ok? && r.value.buffer == Some(Block([], false))
    ensures Honest(pool) && 0 < initialCapacity ==>
      r.Ok? && r.value.buffer.value.rented && initialCapacity <= Capacity(r.value)
  {
    if initialCapacity < 0 then Throw(ArgumentOutOfRange)
    else
      var a := if initialCapacity == 0 then Block([], false) else Block(pool.rent(initialCapacity), true);
      Ok(MemoryBufferWriter(Some(a), 0, pool, false, []))
  }

  /** `WrittenSpan` and `WrittenMemory`: the first `index` items of the array. */
  function WrittenSpan<T>(w: MemoryBufferWriter<T>): (r: Result<seq<T>>)
    ensures Valid(w) && w.disposed ==> r == Throw(ObjectDisposed)
    ensures Valid(w) && !w.disposed ==> r == Ok(Prefix(w))
  {
    if w.disposed then Throw(ObjectDisposed)
    else match w.buffer
      case None => if w.index == 0 then Ok([]) else Throw(ArgumentOutOfRange)
      case Some(b) => if Fits(|b.items|, 0, w.index) then Ok(b.items[..w.index]) else Throw(ArgumentOutOfRange)
  }

  /** `GrowIfRequired(size, out length)`: None when `index + size` still fits,
      otherwise the length to rent. */
  function GrowIfRequired<T>(w: MemoryBufferWriter<T>, size: Int32): (r: Result<Option<Int32>>)
    ensures r.Ok? ==> w.buffer.Some?
    ensures Valid(w) && w.buffer.Some? && 0 <= size && w.index + size <= Capacity(w) ==> r == Ok(None)
    ensures Valid(w) && w.buffer.Some? && 0 <= size && Capacity(w) < w.index + size <= 0x4000_0000 ==>
      r.Ok? && r.value.Some? && IsPow2(r.value.value) &&
      w.index + size <= r.value.value < 2 * (w.index + size)
    ensures Valid(w) && w.buffer.Some? && 0 <= size && Capacity(w) < w.index + size && 0x4000_0000 < w.index + size ==>
      r == Throw(Overflow)
  {
    match CheckedAdd(w.index, size)
    case Throw(e) => Throw(e)
    case Ok(newIndex) =>
      match w.buffer
      case None => Throw(NullReference)
      case Some(b) =>
        if Wrap(|b.items| - newIndex) >= 0 then Ok(None)
        else
          RoundUpResult(newIndex);
          match RoundUpPow2Ceiling(newIndex)
          case Throw(e) => Throw(e)
          case Ok(length) => Ok(Some(length))
  }

  /** `Grow(size)`, with the old array handed back to the pool as the source
      does it (`returnEmpty`: even when it is the shared empty array) or only
      when it was rented. */
  function Regrow<T>(w: MemoryBufferWriter<T>, size: Int32, returnEmpty: bool): (r: Outcome<MemoryBufferWriter<T>, ()>)
    ensures r.Returned? ==> r.state.buffer.Some?
    ensures r.Threw? ==> r.state == w
    ensures r.state.index == w.index && r.state.disposed == w.disposed && r.state.pool == w.pool
    ensures r.state.returned == w.returned || (w.buffer.Some? &&
      r.state.returned == w.returned + if returnEmpty then [w.buffer.value] else Retire(w.buffer.value))
    ensures Valid(w) ==> Valid(r.state) && WrittenSpan(r.state) == WrittenSpan(w)
  {
    if w.disposed then Threw(w, ObjectDisposed)
    else match GrowIfRequired(w, size)
      case Throw(e) => Threw(w, e)
      case Ok(None) => Returned(w, ())
      case Ok(Some(length)) =>
        var held := w.buffer.value;
        match Rent(w.pool, length)
        case Throw(e) => Threw(w, e)
        case Ok(next) =>
          if !Fits(|next|, 0, w.index) || !Fits(|held.items|, 0, w.index) then Threw(w, ArgumentOutOfRange)
          else
            var log := if returnEmpty then w.returned + [held] else w.returned + Retire(held);
            Returned(w.(buffer := Some(Block(held.items[..w.index] + next[w.index..], true)), returned := log), ())
  }

  /** `Grow` as written: the shared empty array goes back to the pool too. */
  function GrowAsWritten<T>(w: MemoryBufferWriter<T>, size: Int32): (r: Outcome<MemoryBufferWriter<T>, ()>)
    ensures r.Returned? ==> r.state.buffer.Some?
    ensures r.Threw? ==> r.state == w
    ensures Valid(w) ==> Valid(r.state) && WrittenSpan(r.state) == WrittenSpan(w)
    ensures r.state.returned == w.returned || (w.buffer.Some? && r.state.returned == w.returned + [w.buffer.value])
    ensures Valid(w) && Honest(w.pool) && !w.disposed && 0 <= size && Capacity(w) < w.index + size <= 0x4000_0000 ==>
      r.Returned? && r.state.returned == w.returned + [w.buffer.value]
  {
    Regrow(w, size, true)
  }

  /** `Grow(size)`: make room for `size` more items past the cursor, keeping
      the items written so far. */
  function Grow<T>(w: MemoryBufferWriter<T>, size: Int32): (r: Outcome<MemoryBufferWriter<T>, ()>)
    ensures r.state.index == w.index && r.state.disposed == w.disposed && r.state.pool == w.pool
    ensures Valid(w) ==> Valid(r.state) && WrittenSpan(r.state) == WrittenSpan(w)
    ensures r.Returned? ==> r.state.buffer.Some?
    ensures r.Threw? ==> r.state == w
    ensures r.state.returned == w.returned || (w.buffer.Some? && r.state.returned == w.returned + Retire(w.buffer.value))
    ensures w.disposed ==> r == Threw(w, ObjectDisposed)
  {
    Regrow(w, size, false)
  }

  /** A reservation that fits leaves the writer as it is. */
  lemma GrowWhenRoomy<T>(w: MemoryBufferWriter<T>, size: Int32)
    requires Valid(w) && !w.disposed && 0 <= size && w.index + size <= Capacity(w)
    ensures Grow(w, size) == Returned(w, ())
  {
  }

  /** A reservation that does not fit rents the least power of two that holds
      `index + size` items, keeps the written items and retires the old array. */
  lemma GrowRentsNextPowerOfTwo<T>(w: MemoryBufferWriter<T>, size: Int32)
    requires Valid(w) && Honest(w.pool) && !w.disposed && 0 <= size
    requires Capacity(w) < w.index + size <= 0x4000_0000
    ensures var r := Grow(w, size);
      && r.Returned?
      && w.index + size <= Capacity(r.state)
      && r.state.buffer.value.rented
      && r.state.returned == w.returned + Retire(w.buffer.value)
      && exists p :: IsPow2(p) && w.index + size <= p < 2 * (w.index + size) &&
           r.state.buffer.value.items[w.index..] == w.pool.rent(p)[w.index..]
  {
  }

  /** Past 2^30 items the next power of two does not fit in an `int`. */
  lemma GrowOverflowsPast2To30<T>(w: MemoryBufferWriter<T>, size: Int32)
    requires Valid(w) && !w.disposed && 0 <= size
    requires Capacity(w) < w.index + size && 0x4000_0000 < w.index + size
    ensures Grow(w, size) == Threw(w, Overflow)
  {
  }

  /** The size `GetSpan` and `GetMemory` reserve for a hint: 0 asks for 8. */
  function SizeFor(sizeHint: Int32): Int32
  {
    if sizeHint == 0 then 8 else sizeHint
  }

  /** `GetSpan(sizeHint)` and `GetMemory(sizeHint)`: grow, then hand out the
      region of the array that starts at the cursor. */
  function GetSpan<T>(w: MemoryBufferWriter<T>, sizeHint: Int32): (r: Outcome<MemoryBufferWriter<T>, View>)
    requires Valid(w) && Honest(w.pool)
    ensures Valid(r.state) && r.state.index == w.index && WrittenSpan(r.state) == WrittenSpan(w)
    ensures r.Returned? ==> r.value.start == w.index && Fits(Capacity(r.state), r.value.start, r.value.length)
    ensures r.Returned? ==> 0 <= sizeHint && r.value == View(w.index, if sizeHint == 0 then 8 else sizeHint)
    ensures w.disposed ==> r == Threw(w, ObjectDisposed)
    ensures sizeHint < 0 ==> r.Threw?
    ensures !w.disposed && 0 <= sizeHint && w.index + SizeFor(sizeHint) <= 0x4000_0000 ==>
      r.Returned? && r.value == View(w.index, if sizeHint == 0 then 8 else sizeHint)
    ensures !w.disposed && 0 <= sizeHint ==>
      (r.Returned? <==> w.index + SizeFor(sizeHint) <= Capacity(w) || w.index + SizeFor(sizeHint) <= 0x4000_0000)
    ensures !w.disposed && 0 <= sizeHint && Capacity(w) < w.index + SizeFor(sizeHint) && 0x4000_0000 < w.index + SizeFor(sizeHint) ==>
      r == Threw(w, Overflow)
  {
    var n := SizeFor(sizeHint);
    match Grow(w, n)
    case Threw(s, e) => Threw(s, e)
    case Returned(s, _) =>
      if Fits(Capacity(s), s.index, n) then Returned(s, View(s.index, n))
      else Threw(s, ArgumentOutOfRange)
  }

  /** `Advance(count)`, checking the new cursor against `limit`: the source
      passes the array length where the cursor was meant. */
  function AdvanceFrom<T>(w: MemoryBufferWriter<T>, count: Int32, limit: Int32): (r: Outcome<MemoryBufferWriter<T>, ()>)
    ensures r.Threw? ==> r.state == w
    ensures r.Returned? ==> r.state == w.(index := r.state.index)
  {
    match CheckedAdd(limit, count)
    case Throw(e) => Threw(w, e)
    case Ok(newIndex) =>
      if newIndex < 0 then Threw(w, ArgumentOutOfRange)
      else match w.buffer
        case None => Threw(w, NullReference)
        case Some(b) =>
          if w.index > Wrap(|b.items| - count) then Threw(w, InvalidOperation)
          else Returned(w.(index := newIndex), ())
  }

  /** `Advance` as written: the new cursor is the array length plus `count`. */
  function AdvanceAsWritten<T>(w: MemoryBufferWriter<T>, count: Int32): (r: Outcome<MemoryBufferWriter<T>, ()>)
    ensures r.Threw? ==> r.state == w
    ensures w.buffer.None? ==> r == Threw(w, NullReference)
    ensures r.Returned? ==> r.state.index == Capacity(w) + count && r.state == w.(index := r.state.index)
    ensures Valid(w) && w.buffer.Some? && 0 <= count ==>
      (r.Returned? <==> w.index + count <= Capacity(w) && Capacity(w) + count <= MaxInt32)
  {
    match w.buffer
    case None => Threw(w, NullReference)
    case Some(b) => AdvanceFrom(w, count, |b.items|)
  }

  /** `Advance(count)`: commit `count` items written into the region
      `GetSpan` handed out. */
  function Advance<T>(w: MemoryBufferWriter<T>, count: Int32): (r: Outcome<MemoryBufferWriter<T>, ()>)
    requires Valid(w)
    ensures Valid(r.state)
    ensures r.Threw? ==> r.state == w
    ensures r.Returned? ==> r.state.index == w.index + count && r.state == w.(index := r.state.index)
    ensures w.buffer.None? ==> r.Threw?
    ensures w.index + count < 0 ==> r == Threw(w, ArgumentOutOfRange)
    ensures w.buffer.Some? && 0 <= count ==>
      (r.Returned? <==> w.index + count <= Capacity(w))
    ensures w.buffer.Some? && 0 <= count && Capacity(w) < w.index + count ==>
      r == Threw(w, if w.index + count > MaxInt32 then Overflow else InvalidOperation)
  {
    AdvanceFrom(w, count, w.index)
  }

  /** `Write(item)`: grow by one and store `item` at the cursor. */
  function Write<T>(w: MemoryBufferWriter<T>, item: T): (r: Outcome<MemoryBufferWriter<T>, ()>)
    requires Valid(w) && Honest(w.pool)
    ensures Valid(r.state) && r.state.pool == w.pool
    ensures r.Threw? ==> r.state == w
    ensures r.Returned? ==> !w.disposed && WrittenSpan(r.state) == Ok(Prefix(w) + [item])
    ensures w.disposed ==> r == Threw(w, ObjectDisposed)
    ensures !w.disposed && w.index < 0x4000_0000 ==> r.Returned?
    ensures !w.disposed ==> (r.Returned? <==> w.index < Capacity(w) || w.index < 0x4000_0000)
    ensures !w.disposed && w.index == Capacity(w) && 0x4000_0000 <= w.index ==> r == Threw(w, Overflow)
  {
    match Grow(w, 1)
    case Threw(s, e) => Threw(s, e)
    case Returned(s, _) =>
      var b := s.buffer.value;
      if s.index < |b.items| then
        assert b.items[s.index := item][..s.index + 1] == b.items[..s.index] + [item];
        Returned(s.(buffer := Some(b.(items := b.items[s.index := item])), index := Wrap(s.index + 1)), ())
      else Threw(s, IndexOutOfRange)
  }

  /** `Copy(items)`, behind `Write(ReadOnlySpan<T>)`, `Write(ReadOnlyMemory<T>)`
      and `Write(T[])`: grow by the item count and copy the items in at the
      cursor. */
  function Copy<T>(w: MemoryBufferWriter<T>, items: Array<T>): (r: Outcome<MemoryBufferWriter<T>, ()>)
    requires Valid(w) && Honest(w.pool)
    ensures Valid(r.state) && r.state.pool == w.pool
    ensures r.Threw? ==> r.state == w
    ensures r.Returned? ==> !w.disposed && WrittenSpan(r.state) == Ok(Prefix(w) + items)
    ensures w.disposed ==> r == Threw(w, ObjectDisposed)
    ensures !w.disposed && w.index + |items| <= 0x4000_0000 ==> r.Returned?
    ensures !w.disposed ==>
      (r.Returned? <==> w.index + |items| <= Capacity(w) || w.index + |items| <= 0x4000_0000)
    ensures !w.disposed && Capacity(w) < w.index + |items| && 0x4000_0000 < w.index + |items| ==> r == Threw(w, Overflow)
  {
    match Grow(w, |items|)
    case Threw(s, e) => Threw(s, e)
    case Returned(s, _) =>
      var b := s.buffer.value;
      if !Fits(|b.items|, s.index, |items|) then Threw(s, ArgumentOutOfRange)
      else
        var next := b.items[..s.index] + items + b.items[s.index + |items|..];
        Returned(s.(buffer := Some(b.(items := next)), index := Wrap(s.index + |items|)), ())
  }

  /** `Dispose()` as written: the array goes back to the pool (even the shared
      empty one) and is dropped, but the writer is never marked disposed. */
  function DisposeAsWritten<T>(w: MemoryBufferWriter<T>): (r: MemoryBufferWriter<T>)
    ensures r.disposed == w.disposed && r.index == w.index
    ensures !w.disposed ==> r.buffer.None?
    ensures !w.disposed && w.buffer.Some? ==> r.returned == w.returned + [w.buffer.value]
    ensures w.disposed || w.buffer.None? ==> r == w
  {
    if w.disposed then w
    else match w.buffer
      case None => w
      case Some(b) => w.(buffer := None, returned := w.returned + [b])
  }

  /** `Dispose()`: hand a rented array back to the pool once and mark the
      writer disposed. */
  function Dispose<T>(w: MemoryBufferWriter<T>): (r: MemoryBufferWriter<T>)
    requires Valid(w)
    ensures Valid(r) && r.disposed && r.index == w.index && r.pool == w.pool
    ensures w.disposed ==> r == w
    ensures !w.disposed ==> r.returned == w.returned + Retire(w.buffer.value)
  {
    if w.disposed then w
    else match w.buffer
      case None => w.(disposed := true)
      case Some(b) => w.(buffer := None, disposed := true, returned := w.returned + Retire(b))
  }

  /** `Write(item)` once per item, stopping at the first exception. */
  function WriteEach<T>(w: MemoryBufferWriter<T>, items: seq<T>): (r: Outcome<MemoryBufferWriter<T>, ()>)
    requires Valid(w) && Honest(w.pool)
    ensures Valid(r.state)
    ensures r.Returned? && !w.disposed ==> WrittenSpan(r.state) == Ok(Prefix(w) + items)
    ensures !w.disposed && w.index + |items| <= 0x4000_0000 ==> r.Returned?
    ensures w.disposed && items != [] ==> r == Threw(w, ObjectDisposed)
    decreases |items|
  {
    if items == [] then
      assert !w.disposed ==> Prefix(w) + items == Prefix(w);
      Returned(w, ())
    else
      match Write(w, items[0])
      case Threw(s, e) => Threw(s, e)
      case Returned(s, _) =>
        assert Prefix(w) + items == Prefix(w) + [items[0]] + items[1..];
        WriteEach(s, items[1..])
  }

  /** Writing the items one at a time leaves the same written items as
      copying them in one call. */
  lemma CopyMatchesWriteEach<T>(w: MemoryBufferWriter<T>, items: Array<T>)
    requires Valid(w) && Honest(w.pool) && !w.disposed
    requires w.index + |items| <= Capacity(w) || w.index + |items| <= 0x4000_0000
    ensures Copy(w, items).Returned? && WriteEach(w, items).Returned?
    ensures WrittenSpan(Copy(w, items).state) == WrittenSpan(WriteEach(w, items).state)
  {
    if w.index + |items| <= Capacity(w) {
      WriteEachFits(w, items);
    }
  }

  /** Items that fit the current array are all written one at a time, however
      large the array. */
  lemma {:induction false} WriteEachFits<T>(w: MemoryBufferWriter<T>, items: seq<T>)
    requires Valid(w) && Honest(w.pool) && !w.disposed && w.index + |items| <= Capacity(w)
    ensures WriteEach(w, items).Returned?
    decreases |items|
  {
    if items != [] {
      var s := Write(w, items[0]).state;
      assert Capacity(s) == Capacity(w);
      WriteEachFits(s, items[1..]);
    }
  }

  /** The caller filling the region `GetSpan` handed out. */
  function Fill<T>(w: MemoryBufferWriter<T>, at: View, items: seq<T>): MemoryBufferWriter<T>
    requires w.buffer.Some? && |items| <= at.length && Fits(Capacity(w), at.start, at.length)
  {
    var b := w.buffer.value;
    w.(buffer := Some(b.(items := b.items[..at.start] + items + b.items[at.start + |items|..])))
  }

  /** Reserving with `GetSpan`, filling part of the region and committing that
      part with `Advance` appends exactly the filled items. */
  lemma ReserveFillAdvance<T>(w: MemoryBufferWriter<T>, sizeHint: Int32, items: seq<T>)
    requires Valid(w) && Honest(w.pool) && !w.disposed && 0 <= sizeHint
    requires w.index + SizeFor(sizeHint) <= Capacity(w) || w.index + SizeFor(sizeHint) <= 0x4000_0000
    requires |items| <= SizeFor(sizeHint)
    ensures var g := GetSpan(w, sizeHint);
      && g.Returned?
      && var a := Advance(Fill(g.state, g.value, items), |items|);
      && a.Returned?
      && WrittenSpan(a.state) == Ok(Prefix(w) + items)
  {
  }

  /** As written, `Advance` moves the cursor past the end of the array: from
      a cursor at 0 in an 8-item array, committing one item leaves it at 9. */
  lemma AdvanceAsWrittenOvershoots<T>(w: MemoryBufferWriter<T>, count: Int32)
    requires Valid(w) && !w.disposed && 0 < count && w.index + count <= Capacity(w)
    requires Capacity(w) + count <= MaxInt32
    ensures var r := AdvanceAsWritten(w, count);
      r == Returned(w.(index := Capacity(w) + count), ()) && !Valid(r.state)
  {
  }

  /** Committing what fits keeps the cursor inside the array. */
  lemma AdvanceWithinCapacity<T>(w: MemoryBufferWriter<T>, count: Int32)
    requires Valid(w) && !w.disposed && 0 <= count && w.index + count <= Capacity(w)
    ensures Advance(w, count) == Returned(w.(index := w.index + count), ())
    ensures Valid(Advance(w, count).state)
  {
  }

  /** As written, the first growth of a writer created with capacity 0 hands
      the shared empty array to the pool, which never lent it. */
  lemma GrowAsWrittenReturnsEmptyArray<T>(pool: Pool<T>, size: Int32)
    requires Honest(pool) && 0 < size <= 0x4000_0000
    ensures var w := Create(pool, 0).value;
      var r := GrowAsWritten(w, size);
      r.Returned? && r.state.returned == [Block([], false)]
  {
  }

  /** Growing only ever hands back arrays that came from the pool. */
  lemma GrowReturnsOnlyRented<T>(w: MemoryBufferWriter<T>, size: Int32)
    requires Valid(w) && Honest(w.pool)
    requires forall i :: 0 <= i < |w.returned| ==> w.returned[i].rented
    ensures var r := Grow(w, size);
      forall i :: 0 <= i < |r.state.returned| ==> r.state.returned[i].rented
  {
  }

  /** Disposing twice is disposing once: the array goes back to the pool once. */
  lemma DisposeIdempotent<T>(w: MemoryBufferWriter<T>)
    requires Valid(w)
    ensures Dispose(Dispose(w)) == Dispose(w)
  {
  }

  /** As written, a second `Dispose` finds the array gone and does nothing. */
  lemma DisposeAsWrittenIdempotent<T>(w: MemoryBufferWriter<T>)
    ensures DisposeAsWritten(DisposeAsWritten(w)) == DisposeAsWritten(w)
  {
  }

  /** Every member that checks for disposal refuses a disposed writer;
      `Advance`, which does not check, fails on the dropped array. */
  lemma UseAfterDisposeFails<T>(w: MemoryBufferWriter<T>, size: Int32, item: T, items: Array<T>, count: Int32)
    requires Valid(w) && Honest(w.pool)
    ensures var d := Dispose(w);
      && WrittenSpan(d) == Throw(ObjectDisposed)
      && Grow(d, size) == Threw(d, ObjectDisposed)
      && GetSpan(d, size) == Threw(d, ObjectDisposed)
      && Write(d, item) == Threw(d, ObjectDisposed)
      && Copy(d, items) == Threw(d, ObjectDisposed)
      && Advance(d, count).Threw?
  {
  }

  /** As written, `Dispose` never sets the disposed flag: the written view of
      a disposed writer is empty at cursor 0 and out of range past it instead
      of reporting the disposal, and growing fails on the dropped array (or
      on the overflowing sum before it). */
  lemma DisposeAsWrittenLeavesWriterOpen<T>(w: MemoryBufferWriter<T>, size: Int32)
    requires Valid(w) && !w.disposed
    ensures var d := DisposeAsWritten(w);
      && !d.disposed
      && WrittenSpan(d) == (if w.index == 0 then Ok([]) else Throw(ArgumentOutOfRange))
      && GrowAsWritten(d, size) == Threw(d, if w.index + size <= MaxInt32 then NullReference else Overflow)
  {
  }
}

=== FILE: pool.dfy ===
/** Arrays, the array pool the writers rent from, and the bounds check of the
    runtime's span constructors. */
module ArrayPools {
  import opened Runtime

  /** A runtime array: its length is an `int`. */
  type Array<T> = a: seq<T> | |a| <= MaxInt32 witness []

  /** An array pool. `rent(n)` is the array a `Rent(n)` call hands out: the
      pool's internals are not modelled, so its contents are arbitrary. */
  datatype Pool<T> = Pool(rent: nat -> Array<T>)

  /** What `ArrayPool<T>.Rent` promises: an array at least as long as asked
      for. */
  ghost predicate Honest<T>(p: Pool<T>)
  {
    forall n: nat :: n <= MaxInt32 ==> n <= |p.rent(n)|
  }

  /** `pool.Rent(n)`: a negative length is refused. */
  function Rent<T>(p: Pool<T>, n: Int32): (r: Result<Array<T>>)
    ensures r.Throw? <==> n < 0
    ensures r.Throw? ==> r.exception == ArgumentOutOfRange
    ensures Honest(p) && r.Ok? ==> n <= |r.value|
  {
    if n < 0 then Throw(ArgumentOutOfRange) else Ok(p.rent(n))
  }

  /** A span or memory handed out by a writer, as the range
      `[start, start + length)` of its current array. */
  datatype View = View(start: nat, length: nat)

  /** The check of `new Span<T>(array, start, length)` and of
      `Span<T>.Slice(start, length)`: the range must lie inside the array. */
  predicate Fits(arrayLength: int, start: int, length: int)
  {
    0 <= start && 0 <= length && start + length <= arrayLength
  }
}

=== FILE: pow2.dfy ===
/** `RoundUpPow2Ceiling`, the growth rule of the memory buffer writer: the
    bit-smearing rounding of a runtime `int` up to a power of two, inside a
    `checked` block. */
module PowerOfTwo {
  import opened Runtime
  import opened Bits

  predicate IsPow2(n: int)
    decreases if n < 1 then 0 else n
  {
    n == 1 || (n > 1 && n % 2 == 0 && IsPow2(n / 2))
  }

  lemma {:induction false} Pow2IsPow2(k: nat)
    ensures IsPow2(Pow2(k))
  {
    if k > 0 {
      Pow2IsPow2(k - 1);
    }
  }

  /** A smaller power of two is at most half of a larger one. */
  lemma {:induction false} PowersApart(p: int, q: int)
    requires IsPow2(p) && IsPow2(q) && q < p
    ensures 2 * q <= p
    decreases q
  {
    if q != 1 {
      PowersApart(p / 2, q / 2);
    }
  }

  /** A power of two in `[x, 2x)` is the least power of two that is at least
      `x`. */
  lemma LeastPow2AtLeast(x: int, p: int, q: int)
    requires IsPow2(p) && x <= p < 2 * x
    requires IsPow2(q) && x <= q
    ensures p <= q
  {
    if q < p {
      PowersApart(p, q);
    }
  }

  /** What the five smearing steps make of `v` (the argument after `--x`). */
  lemma SmearedValue(v: Int32)
    ensures var k := Width(ToWord(v));
      0 <= v ==> FromWord(Smear(ToWord(v))) == Pow2(k) - 1 && v < Pow2(k) && (k == 0 || Pow2(k - 1) <= v)
    ensures v < 0 ==> FromWord(Smear(ToWord(v))) == -1
  {
    var w := ToWord(v);
    var k := Width(w);
    SmearIsLowOnes(w);
    ValLowOnes(k, 32);
    WordRoundTrip(v);
    WidthBracketsVal(w);
    Pow2Constants();
    if 0 <= v {
      ValBitsOf(v, 32);
      Pow2Order(k, 31);
      assert !LowOnes(k, 32)[31];
    }
  }

  /** `RoundUpPow2Ceiling(x)`: `--x`, then `x |= x >> s` for s = 1, 2, 4, 8,
      16, then `++x`, all inside `checked`. For 1 <= x <= 2^30 the result is
      the least power of two that is at least `x` (see `LeastPow2AtLeast`);
      above 2^30 the final increment overflows; at or below zero the result
      is 0, except at the minimum, where the decrement overflows. */
  function RoundUpPow2Ceiling(x: Int32): Result<Int32>
  {
    if x == MinInt32 then Throw(Overflow)  // checked --x
    else CheckedIncrement(Smeared(x - 1))
  }

  /** What `RoundUpPow2Ceiling` returns, by the range of its argument. */
  lemma RoundUpResult(x: Int32)
    ensures var r := RoundUpPow2Ceiling(x);
      && (1 <= x <= 0x4000_0000 ==> r.Ok? && IsPow2(r.value) && x <= r.value < 2 * x)
      && (0x4000_0000 < x ==> r == Throw(Overflow))
      && (MinInt32 < x <= 0 ==> r == Ok(0))
      && (x == MinInt32 ==> r == Throw(Overflow))
  {
    if x != MinInt32 {
      var y := Smeared(x - 1);
      SmearedFacts(x - 1);
      IncrementFacts(x - 1, y);
    }
  }

  /** The five `x |= x >> s` steps on a runtime `int`. */
  function Smeared(v: Int32): Int32
  {
    FromWord(Smear(ToWord(v)))
  }

  /** The smeared decremented argument, by the range of the argument. */
  lemma SmearedFacts(v: Int32)
    ensures var y := Smeared(v);
      && (0 <= v < 0x4000_0000 ==> y < MaxInt32 && IsPow2(y + 1) && v < y + 1 <= 2 * v + 1)
      && (0x4000_0000 <= v ==> y == MaxInt32)
      && (v < 0 ==> y == -1)
  {
    SmearedValue(v);
    var k := Width(ToWord(v));
    Pow2Constants();
    if 0 <= v {
      Pow2Order(k, 30);
      Pow2Order(k, 31);
      Pow2IsPow2(k);
    }
  }

  /** The checked `++x` that ends the routine, applied to the smeared value. */
  lemma IncrementFacts(v: Int32, y: Int32)
    requires v < MaxInt32
    requires
      && (0 <= v < 0x4000_0000 ==> y < MaxInt32 && IsPow2(y + 1) && v < y + 1 <= 2 * v + 1)
      && (0x4000_0000 <= v ==> y == MaxInt32)
      && (v < 0 ==> y == -1)
    ensures var r := CheckedIncrement(y);
      && (0 <= v < 0x4000_0000 ==> r.Ok? && IsPow2(r.value) && v + 1 <= r.value < 2 * (v + 1))
      && (0x4000_0000 <= v ==> r == Throw(Overflow))
      && (v < 0 ==> r == Ok(0))
  {
  }

  /** For 1 <= x <= 2^30 no power of two that is at least `x` lies below the
      rounded value. */
  lemma RoundUpIsLeast(x: Int32, q: int)
    requires 1 <= x <= 0x4000_0000 && IsPow2(q) && x <= q
    ensures RoundUpPow2Ceiling(x).Ok? && RoundUpPow2Ceiling(x).value <= q
  {
    RoundUpResult(x);
    LeastPow2AtLeast(x, RoundUpPow2Ceiling(x).value, q);
  }
}

=== FILE: resizable_writer.dfy ===
/** `ResizableSpanWriter<T>`: an append-only writer over one rented array that
    grows by at least a fixed increment whenever a write does not fit. */
module ResizableWriter {
  import opened Runtime
  import opened ArrayPools

  /** The increment of the parameterless constructor. */
  const DefaultGrowthIncrement: Int32 := 256

  datatype ResizableSpanWriter<T> = ResizableSpanWriter(
    buffer: Array<T>,          // `_buffer` and `_last`: always the same rented array
    growthIncrement: Int32,    // `_growthIncrement`
    index: Int32,              // `_index`
    pool: Pool<T>,             // the pool the writer rents from and returns to
    returned: seq<Array<T>>)   // arrays handed back to the pool, in order

  /** What the writer keeps true between calls. */
  predicate Valid<T>(w: ResizableSpanWriter<T>)
  {
    1 <= w.growthIncrement && 0 <= w.index <= |w.buffer|
  }

  /** The items written so far. */
  function Prefix<T>(w: ResizableSpanWriter<T>): seq<T>
    requires Valid(w)
  {
    w.buffer[..w.index]
  }

  /** The constructor as written: it rents from the shared pool whatever pool
      it is given. */
  function CreateAsWritten<T>(pool: Pool<T>, shared: Pool<T>, growthIncrement: Int32): (r: Result<ResizableSpanWriter<T>>)
    ensures r.Throw? <==> growthIncrement < 1
    ensures r.Ok? ==> r.value.pool == shared && r.value == Create(shared, growthIncrement).value
  {
    if growthIncrement < 1 then Throw(ArgumentOutOfRange)
    else Ok(ResizableSpanWriter(shared.rent(growthIncrement), growthIncrement, 0, shared, []))
  }

  /** `new ResizableSpanWriter<T>(pool, growthIncrement)`, renting from `pool`.
      The constructor taking only an increment passes the shared pool. */
  function Create<T>(pool: Pool<T>, growthIncrement: Int32): (r: Result<ResizableSpanWriter<T>>)
    ensures r.Throw? <==> growthIncrement < 1
    ensures r.Throw? ==> r.exception == ArgumentOutOfRange
    ensures r.Ok? ==> Valid(r.value) && r.value.index == 0 && r.value.pool == pool && r.value.returned == []
    ensures r.Ok? ==> r.value.growthIncrement == growthIncrement
    ensures r.Ok? && Honest(pool) ==> growthIncrement <= |r.value.buffer|
  {
    if growthIncrement < 1 then Throw(ArgumentOutOfRange)
    else Ok(ResizableSpanWriter(pool.rent(growthIncrement), growthIncrement, 0, pool, []))
  }

  /** `new ResizableSpanWriter<T>()`: the shared pool and an increment of
      `DefaultGrowthIncrement`, which is valid, so it never throws. */
  function CreateDefault<T>(shared: Pool<T>): (r: ResizableSpanWriter<T>)
    ensures Valid(r) && r.index == 0 && r.pool == shared && r.returned == []
    ensures r.growthIncrement == 256
    ensures Honest(shared) ==> 256 <= |r.buffer|
  {
    Create(shared, DefaultGrowthIncrement).value
  }

  /** `WrittenSpan` and `WrittenMemory`: the first `index` items of the buffer. */
  function WrittenSpan<T>(w: ResizableSpanWriter<T>): (r: Result<seq<T>>)
    ensures Valid(w) ==> r == Ok(Prefix(w))
    ensures r.Throw? ==> r.exception == ArgumentOutOfRange
  {
    if Fits(|w.buffer|, 0, w.index) then Ok(w.buffer[..w.index]) else Throw(ArgumentOutOfRange)
  }

  /** `Grow(length)`: when `index + length` (unchecked) exceeds the buffer,
      rent at least `index + max(growthIncrement, length)` items, copy the
      whole buffer over and return the old array to the pool. */
  function Grow<T>(w: ResizableSpanWriter<T>, length: Int32): (r: Outcome<ResizableSpanWriter<T>, ()>)
    requires Valid(w) && Honest(w.pool)
    ensures Valid(r.state) && r.state.index == w.index && r.state.growthIncrement == w.growthIncrement
    ensures r.state.pool == w.pool && Prefix(r.state) == Prefix(w)
    ensures r.Threw? ==> r.state == w
    ensures r.state.returned == w.returned || r.state.returned == w.returned + [w.buffer]
    ensures |w.buffer| <= |r.state.buffer| && r.state.buffer[..|w.buffer|] == w.buffer
    ensures 0 <= length && w.index + length <= |w.buffer| ==> r == Returned(w, ())
    ensures 0 <= length && w.index + length <= MaxInt32 ==>
      r.Returned? && w.index + length <= |r.state.buffer|
    ensures 0 <= length && |w.buffer| < w.index + length <= MaxInt32 ==>
      r.state.returned == w.returned + [w.buffer]
    ensures r.Returned? && r.state.returned != w.returned && w.index + w.growthIncrement <= MaxInt32 ==>
      w.index + w.growthIncrement <= |r.state.buffer|
  {
    if Wrap(w.index + length) <= |w.buffer| then Returned(w, ())
    else
      match Rent(w.pool, Max(Wrap(w.index + w.growthIncrement), Wrap(w.index + length)))
      case Throw(e) => Threw(w, e)
      case Ok(next) =>
        // `CopyTo` refuses a destination shorter than the source
        if |next| < |w.buffer| then Threw(w, Argument)
        else Returned(w.(buffer := w.buffer + next[|w.buffer|..], returned := w.returned + [w.buffer]), ())
  }

  /** `Slice(length)`: grow, hand out the region at the cursor and move the
      cursor past it. */
  function Slice<T>(w: ResizableSpanWriter<T>, length: Int32): (r: Outcome<ResizableSpanWriter<T>, View>)
    requires Valid(w) && Honest(w.pool)
    ensures Valid(r.state) && r.state.growthIncrement == w.growthIncrement && r.state.pool == w.pool
    ensures r.Threw? ==> r.state.index == w.index && Prefix(r.state) == Prefix(w)
    ensures r.Returned? ==>
      && 0 <= length
      && r.value == View(w.index, length)
      && r.state.index == w.index + length
      && r.state.buffer[..w.index] == Prefix(w)
    ensures 0 <= length && w.index + length <= MaxInt32 <==> r.Returned?
  {
    match Grow(w, length)
    case Threw(s, e) => Threw(s, e)
    case Returned(s, _) =>
      if !Fits(|s.buffer|, s.index, length) then Threw(s, ArgumentOutOfRange)
      else Returned(s.(index := Wrap(s.index + length)), View(s.index, length))
  }

  /** `Write(item)` and `WriteAsync(item)`: store `item` in a slice of one. */
  function WriteItem<T>(w: ResizableSpanWriter<T>, item: T): (r: Outcome<ResizableSpanWriter<T>, ()>)
    requires Valid(w) && Honest(w.pool)
    ensures Valid(r.state) && r.state.growthIncrement == w.growthIncrement && r.state.pool == w.pool
    ensures r.Returned? ==> Prefix(r.state) == Prefix(w) + [item]
    ensures r.Threw? ==> Prefix(r.state) == Prefix(w)
    ensures r.Returned? <==> w.index < MaxInt32
  {
    match Slice(w, 1)
    case Threw(s, e) => Threw(s, e)
    case Returned(s, at) =>
      var next := s.buffer[at.start := item];
      assert next[..s.index] == Prefix(w) + [item];
      Returned(s.(buffer := next), ())
  }

  /** `Write(Span<T>)` and `WriteAsync(Memory<T>)` as written: the slice is
      reserved and the cursor moves, but the local variable holding the slice
      is overwritten instead of the buffer, so no item is copied. */
  function WriteSpanAsWritten<T>(w: ResizableSpanWriter<T>, items: Array<T>): (r: Outcome<ResizableSpanWriter<T>, ()>)
    requires Valid(w) && Honest(w.pool)
    ensures Valid(r.state)
    ensures r.Returned? <==> w.index + |items| <= MaxInt32
    ensures r.Returned? ==> r.state.index == w.index + |items| && Prefix(r.state)[..w.index] == Prefix(w)
    ensures r.Returned? && w.index + |items| <= |w.buffer| ==> r.state.buffer == w.buffer
  {
    match Slice(w, |items|)
    case Threw(s, e) => Threw(s, e)
    case Returned(s, _) => Returned(s, ())
  }

  /** `Write(Span<T>)` and `WriteAsync(Memory<T>)`: copy the items into the
      reserved slice. */
  function WriteSpan<T>(w: ResizableSpanWriter<T>, items: Array<T>): (r: Outcome<ResizableSpanWriter<T>, ()>)
    requires Valid(w) && Honest(w.pool)
    ensures Valid(r.state) && r.state.growthIncrement == w.growthIncrement && r.state.pool == w.pool
    ensures r.Returned? ==> Prefix(r.state) == Prefix(w) + items
    ensures r.Threw? ==> Prefix(r.state) == Prefix(w)
    ensures r.Returned? <==> w.index + |items| <= MaxInt32
  {
    match Slice(w, |items|)
    case Threw(s, e) => Threw(s, e)
    case Returned(s, at) =>
      var next := s.buffer[..at.start] + items + s.buffer[at.start + |items|..];
      assert next[..s.index] == Prefix(w) + items;
      Returned(s.(buffer := next), ())
  }

  /** `Write(T* items, int length)`: reserve `length` items and copy them from
      the pointer one at a time. The pointer is modelled as a sequence holding
      at least `length` items. */
  method WritePointer<T>(w: ResizableSpanWriter<T>, items: seq<T>, length: Int32) returns (r: Outcome<ResizableSpanWriter<T>, ()>)
    requires Valid(w) && Honest(w.pool) && length <= |items|
    ensures Valid(r.state) && r.state.growthIncrement == w.growthIncrement && r.state.pool == w.pool
    ensures r.Returned? ==> 0 <= length && Prefix(r.state) == Prefix(w) + items[..length]
    ensures r.Threw? ==> Prefix(r.state) == Prefix(w)
    ensures r.Returned? <==> 0 <= length && w.index + length <= MaxInt32
  {
    var sliced := Slice(w, length);
    if sliced.Threw? {
      return Threw(sliced.state, sliced.exception);
    }
    var s := sliced.state;
    var at := sliced.value;
    var buffer := s.buffer;
    var i := 0;
    while i < length
      invariant 0 <= i <= length
      invariant |buffer| == |s.buffer| && at.start + length <= |buffer|
      invariant buffer[..at.start] == Prefix(w)
      invariant buffer[at.start..at.start + i] == items[..i]
    {
      var next := buffer[at.start + i := items[i]];
      assert next[..at.start] == buffer[..at.start];
      assert next[at.start..at.start + i + 1] == buffer[at.start..at.start + i] + [items[i]];
      assert items[..i + 1] == items[..i] + [items[i]];
      buffer := next;
      i := i + 1;
    }
    assert buffer[..s.index] == buffer[..at.start] + buffer[at.start..at.start + length];
    return Returned(s.(buffer := buffer), ());
  }

  /** `Write(item)` once per item, stopping at the first exception. */
  function WriteEach<T>(w: ResizableSpanWriter<T>, items: seq<T>): (r: Outcome<ResizableSpanWriter<T>, ()>)
    requires Valid(w) && Honest(w.pool)
    ensures Valid(r.state) && r.state.pool == w.pool
    ensures r.Returned? ==> Prefix(r.state) == Prefix(w) + items
    ensures w.index + |items| <= MaxInt32 ==> r.Returned?
    decreases |items|
  {
    if items == [] then
      assert Prefix(w) + items == Prefix(w);
      Returned(w, ())
    else
      match WriteItem(w, items[0])
      case Threw(s, e) => Threw(s, e)
      case Returned(s, _) =>
        assert Prefix(w) + items == Prefix(w) + [items[0]] + items[1..];
        WriteEach(s, items[1..])
  }

  /** Writing 0 to 999 one at a time into a writer with increment 5 leaves
      exactly 0 to 999 written, whatever arrays the pool lends. */
  lemma WriteThousandItems(pool: Pool<int>)
    requires Honest(pool)
    ensures var w := Create(pool, 5).value;
      var r := WriteEach(w, seq(1000, i => i));
      r.Returned? && WrittenSpan(r.state) == Ok(seq(1000, i => i))
  {
    var w := Create(pool, 5).value;
    assert Prefix(w) + seq(1000, i => i) == seq(1000, i => i);
  }

  /** `Write(Span<T>)` once per item, each item in an array of its own,
      stopping at the first exception. */
  function WriteSpanEach<T>(w: ResizableSpanWriter<T>, items: seq<T>): (r: Outcome<ResizableSpanWriter<T>, ()>)
    requires Valid(w) && Honest(w.pool)
    ensures Valid(r.state) && r.state.pool == w.pool
    ensures r.Returned? ==> Prefix(r.state) == Prefix(w) + items
    ensures w.index + |items| <= MaxInt32 ==> r.Returned?
    decreases |items|
  {
    if items == [] then
      assert Prefix(w) + items == Prefix(w);
      Returned(w, ())
    else
      match WriteSpan(w, [items[0]])
      case Threw(s, e) => Threw(s, e)
      case Returned(s, _) =>
        assert Prefix(w) + items == Prefix(w) + [items[0]] + items[1..];
        WriteSpanEach(s, items[1..])
  }

  /** Writing 0 to 999 as one-item arrays into a writer with increment 5
      leaves exactly 0 to 999 written, whatever arrays the pool lends. */
  lemma WriteThousandSpans(pool: Pool<int>)
    requires Honest(pool)
    ensures var w := Create(pool, 5).value;
      var r := WriteSpanEach(w, seq(1000, i => i));
      r.Returned? && WrittenSpan(r.state) == Ok(seq(1000, i => i))
  {
    var w := Create(pool, 5).value;
    assert Prefix(w) + seq(1000, i => i) == seq(1000, i => i);
  }

  /** A pool that lends arrays of zeros of exactly the requested length. */
  function Zeros(): (p: Pool<int>)
    ensures Honest(p)
  {
    Pool((n: nat) => seq(if n <= MaxInt32 then n else MaxInt32, _ => 0))
  }

  /** As written, writing the items `[7]` through `Write(Span<T>)` leaves `[0]`
      written: the slot is reserved but never filled. */
  lemma WriteSpanAsWrittenDropsItems()
    ensures var w := Create(Zeros(), 1).value;
      var r := WriteSpanAsWritten(w, [7]);
      r.Returned? && WrittenSpan(r.state) == Ok([0])
  {
    var w := Create(Zeros(), 1).value;
    assert Zeros().rent(1) == [0];
    assert w.buffer == [0];
    assert Grow(w, 1) == Returned(w, ());
    assert Slice(w, 1) == Returned(w.(index := 1), View(0, 1));
    assert WriteSpanAsWritten(w, [7]) == Returned(w.(index := 1), ());
    var v := w.(index := 1);
    assert v.buffer[..1] == [0];
    assert Valid(v);
    assert WrittenSpan(v) == Ok([0]);
  }

  /** As written, the pool argument has no effect on the writer. */
  lemma CreateAsWrittenIgnoresPool<T>(p: Pool<T>, q: Pool<T>, shared: Pool<T>, growthIncrement: Int32)
    ensures CreateAsWritten(p, shared, growthIncrement) == CreateAsWritten(q, shared, growthIncrement)
  {
  }
}

=== FILE: runtime.dfy ===
/** 32-bit signed integers of the .NET runtime, the exceptions the two writers
    can raise, and the outcome of an operation that may throw part-way. */
module Runtime {

  const MinInt32: int := -0x8000_0000
  const MaxInt32: int := 0x7FFF_FFFF

  /** A value of the runtime's `int` type. */
  type Int32 = x: int | MinInt32 <= x <= MaxInt32

  /** Exceptions raised by the writers, by the runtime's span constructors and
      by the array pool. */
  datatype Exception =
    | ArgumentOutOfRange   // bad start/length of a span, negative count or rent size
    | Argument             // a copy whose destination is too short
    | InvalidOperation     // advancing past the end of the buffer
    | Overflow             // a `checked` operation left the Int32 range
    | ObjectDisposed       // use after disposal
    | NullReference        // use of the array after it has been dropped
    | IndexOutOfRange      // element access outside the array

  datatype Option<+T> = None | Some(value: T)

  /** A value or the exception that was thrown instead. */
  datatype Result<+V> = Ok(value: V) | Throw(exception: Exception)

  /** The state an operation leaves behind, together with the value it
      returned or the exception it threw. A throwing operation may already have
      changed the state, so the state is kept on both sides. */
  datatype Outcome<+S, +V> =
    | Returned(state: S, value: V)
    | Threw(state: S, exception: Exception)

  function Max(a: int, b: int): int { if a < b then b else a }

  /** Unchecked 32-bit two's-complement wrap-around of an exact sum or
      difference. */
  function Wrap(x: int): (r: Int32)
    ensures MinInt32 <= x <= MaxInt32 ==> r == x
    ensures (r - x) % 0x1_0000_0000 == 0
  {
    var u := (x - MinInt32) % 0x1_0000_0000;
    u + MinInt32
  }

  /** A `checked` addition: the exact sum, or an overflow. */
  function CheckedAdd(a: Int32, b: Int32): (r: Result<Int32>)
    ensures r.Ok? <==> Wrap(a + b) == a + b
    ensures r.Ok? ==> r.value == Wrap(a + b)
    ensures r.Throw? ==> r.exception == Overflow
  {
    if MinInt32 <= a + b <= MaxInt32 then Ok(a + b) else Throw(Overflow)
  }

  /** `checked(++x)` */
  function CheckedIncrement(x: Int32): Result<Int32>
  {
    if x == MaxInt32 then Throw(Overflow) else Ok(x + 1)
  }
}
